=== FILE: README.md ===
# Task Manager (React Native): session, request descriptors and screen logic

A Dafny model of the logic of a React Native task-manager client. It has three parts:

- **The session.** The Redux `auth` slice has three reducers: `login`, `logout` and `setUserFromStorage`. `login` and `logout` write to the `"user"` key of durable storage as a side effect. The root component defined in `AppContent.tsx` runs a `loadUser` bootstrap that restores the session when it mounts. It also decides whether the signed-in tabs (`MainTabs`) or the sign-in stack (`AuthStack`) are shown.
- **The REST request descriptors.** These are the `query` functions of the six task endpoints and the two auth endpoints. Each one maps its argument to a URL, an optional method, headers and a body.
- **The pure transforms inside the screens:**
  - unique-category extraction and the category navigation;
  - the create-task schema, its pickers and its submit handler;
  - the home screen's complete/edit/delete handlers and edit state;
  - the register schema, image pick and multipart form data;
  - the login schema and payload, and the `login` dispatch that follows a successful sign-in.

JavaScript values are modelled by `JsValues.Value`, which covers undefined, null, booleans, integers, strings, arrays and plain objects. The model includes:

- truthiness, and loose `== null`;
- property access, which throws a `TypeError` on `null`/`undefined`;
- template-literal conversion to text.

`JSON.stringify` and `JSON.parse` are an abstract `JsonCodec.Codec`. The assumptions made about them are written down once, as `JsonCodec.Lawful`:

- parsing inverts stringifying on JSON values;
- stringified text is never empty;
- only `undefined` has no JSON text;
- parsing yields JSON values only.

Lemmas that need these facts take `Lawful(codec)` as a precondition. Durable storage is a `map<string, string>` that travels with the Redux state in `AuthSlice.Store`.

Each request descriptor has a partner, a router-style reader:

- `TasksApi.RouteOf` reads a request back into the route it asks for;
- `AuthApi.AuthRouteOf` does the same for the two auth requests.

The descriptor properties are round trips through these readers. The screen handlers' requests are stated through the same readers.

Two things about the code that the model keeps as written:

- **`login`'s payload.** The `login` reducer stores `action.payload.user` (`src/store/authSlice.tsx:26`). The login screen dispatches the whole server answer as that payload (`src/screens/LoginScreen.js:27-29`). The model keeps both sides as written:
  - `AuthSlice.LoginCoherentIff`, `AuthSlice.LoginWithoutUserField` and `LoginScreen.SignedInViewIff` state exactly when the session stays coherent.
  - `LoginScreen.TopLevelUserAnswerStaysOnAuthStack` and `LoginScreen.NestedUserAnswerSignsIn` show the two outcomes.
  - The server's answer shape is not visible, so this is stated as a property and not as a defect.
- **Category filtering.** `getTasksByCategory` is never called by the shown screens. Only its descriptor is modelled.

## Model

| member | source | states |
|---|---|---|
| JsValues.Member | src/store/authSlice.tsx:26 | reading a property throws exactly when the object is null or undefined; a present own property reads as its value; a missing one, or any property of another primitive, reads as undefined |
| JsValues.Truthy | AppContent.tsx:20-42 | a nullish value is never truthy, every object and array is, and a string is iff non-empty |
| JsValues.ToText | src/api/tasksApi.js:11-34 | a template literal inserts a string as itself, null as "null", undefined as "undefined", a natural number in decimal, and never an empty text for a number, boolean or object |
| JsValues.Utf16Length | src/screens/RegisterScreen.js:32 | a string's `length` lies between its character count and twice that |
| JsValues.Utf16LengthIsCharCountIff | src/screens/RegisterScreen.js:32 | `length` equals the character count iff no character needs a surrogate pair |
| AuthSlice.Initial | src/store/authSlice.tsx:15-18 | the slice starts with no user and not authenticated |
| AuthSlice.SetItem | src/store/authSlice.tsx:28 | a storage write sets only its own key to the given text and leaves every other key as it was |
| AuthSlice.LoginReducer | src/store/authSlice.tsx:25-29 | `login` throws exactly on a null/undefined payload; otherwise the user becomes the payload's `user` property, the flag is set unconditionally, the serialised user is stored under "user", and no other key changes |
| AuthSlice.LogoutReducer | src/store/authSlice.tsx:30-34 | `logout` clears user and flag from any state, removes "user" and keeps every other stored key and value |
| AuthSlice.RestoreReducer | src/store/authSlice.tsx:35-38 | `setUserFromStorage(p)` sets the user to p, sets the flag iff p is not strictly null, and does not touch storage |
| AuthSlice.Reduce | src/store/authSlice.tsx:24-39 | the slice reducer throws only for a `login` with a null/undefined payload; restoring never writes storage |
| AuthSlice.Dispatch | src/screens/LoginScreen.js:29-32 | a `login` dispatch that throws leaves the store as it was; every other dispatch yields the reducer's new state |
| AuthSlice.LogoutIdempotent | src/store/authSlice.tsx:30-34 | `logout` twice is `logout` once |
| AuthSlice.LogoutAndRestoreAreCoherent | src/store/authSlice.tsx:30-38 | after `logout` or a restore of a parsed value, authenticated iff there is a user |
| AuthSlice.LoginCoherentIff | src/store/authSlice.tsx:25-27 | `login` keeps authenticated-iff-user exactly when the payload's `user` property is not nullish |
| AuthSlice.LoginWithoutUserField | src/store/authSlice.tsx:25-28 | a payload without `user` leaves the slice authenticated with an undefined user and storage unchanged |
| AuthSlice.CoherentUnlessLogin | src/store/authSlice.tsx:24-39 | from a coherent state, every action keeps coherence except a `login` whose payload lacks a user |
| AppContent.Mount | AppContent.tsx:12-14 | the first render state is loading, signed out, over the storage as found |
| AppContent.Render | AppContent.tsx:32-44 | spinner iff loading; once loaded, `MainTabs` iff the user is truthy, `AuthStack` otherwise |
| AppContent.ReadUser | AppContent.tsx:19 | the read yields the stored "user" text iff the key is present |
| AppContent.LoadUserBody | AppContent.tsx:18-25 | at most one restore is dispatched, exactly when a non-empty stored text parses, with the parsed value; an error is logged iff the read or the parse failed, and never together with a dispatch |
| AppContent.LoadUser | AppContent.tsx:17-27 | loading always ends; storage is untouched; the session is unchanged when nothing is dispatched and holds the parsed user otherwise |
| AppContent.Launch | AppContent.tsx:11-30 | after a launch loading is over and storage is as found; a failed read, an absent or empty record, or one that does not parse leaves the initial session; a record that parses becomes the user |
| AppContent.RunKeepsLoading | AppContent.tsx:26 | no sequence of slice actions changes the loading flag |
| AppContent.LoadingEndsOnce | AppContent.tsx:12-38 | the first render is the spinner; after loading, no sequence of actions shows it again |
| AppContent.ReadFailureLandsOnAuthStack | AppContent.tsx:23-26 | a failed read is logged and lands on the sign-in stack |
| AppContent.CorruptRecordLandsOnAuthStack | AppContent.tsx:20-26 | a non-empty record that does not parse is logged and lands on the sign-in stack |
| AppContent.MissingRecordDispatchesNothing | AppContent.tsx:19-20 | an absent or empty record dispatches nothing, logs nothing and leaves the initial session |
| AppContent.StoredNullLandsOnAuthStack | AppContent.tsx:19-42 | a stored "null" restores a null user, not authenticated, and shows the sign-in stack |
| AppContent.LoginThenRelaunch | AppContent.tsx:16-30 | after `login` with `user` = u, a relaunch over the resulting storage restores exactly u, coherently, showing the tabs iff u is truthy |
| AppContent.LogoutThenRelaunch | src/store/authSlice.tsx:30-34 | after `logout`, a relaunch is signed out on the sign-in stack |
| TasksApi.Query | src/api/tasksApi.js:6-38 | the reads are method-less GETs with no headers or body; only create and update carry a JSON content type; delete sends neither headers nor body; create sends the task unchanged; update sends exactly the argument's fields other than `id`, unchanged |
| TasksApi.QueryReachesIntendedRoute | src/api/tasksApi.js:7-37 | every descriptor is read back as the route its call intends, with category, id and update fields intact |
| TasksApi.DistinctRoutesDistinctRequests | src/api/tasksApi.js:16-37 | calls meant for different routes never yield the same request |
| TasksApi.UpdateAndDeleteShareThePath | src/api/tasksApi.js:24-37 | update and delete for the same id share the path and differ in method, headers and body |
| TasksApi.UpdateLosesNothing | src/api/tasksApi.js:24-31 | a string id comes back from the path and every other field from the body |
| TasksApi.CategoryIsNotEscaped | src/api/tasksApi.js:10-12 | a category is inserted verbatim: "Health & Fitness" puts a raw `&` in the query string |
| AuthApi.LoginQuery | src/api/authApi.js:7-14 | sign-in is a JSON POST carrying the credentials unchanged |
| AuthApi.RegisterQuery | src/api/authApi.js:15-22 | sign-up is a multipart POST carrying the form data unchanged |
| AuthApi.AuthQueriesRoundTrip | src/api/authApi.js:7-22 | both auth requests are read back as their operation with the payload intact |
| AuthApi.LoginAndRegisterDifferOnlyInPathAndContent | src/api/authApi.js:7-22 | both are POSTs with the same header keys, differing in path and content type |
| AuthApi.AuthBaseUnderTasksBase | src/api/authApi.js:5 | the auth base is the tasks base followed by "user/" |
| CategoriesScreen.FirstOccurrences | src/screens/CategoriesScreen.js:20 | the distinct names: no duplicates, exactly the names that occur, no longer than the input |
| CategoriesScreen.ExtractCategories | src/screens/CategoriesScreen.js:19-21 | the category list equals the first-occurrence reference: empty without data, duplicate-free, every task's category listed, every listed name carried by some task |
| CategoriesScreen.FirstOccurrenceOrder | src/screens/CategoriesScreen.js:20 | the list keeps the order in which each category first occurs, as a `Set` keeps insertion order |
| CategoriesScreen.SelectCategory | src/screens/CategoriesScreen.js:36 | a tap navigates to `TaskList` with exactly `categoryId` and `categoryName`, both the item's name |
| CategoriesScreen.SelectionNamesARealCategory | src/screens/CategoriesScreen.js:36 | tapping a listed category opens `TaskList` with id and name equal, naming a category some task carries |
| CreateTaskScreen.TaskFormErrors | src/screens/CreateTaskScreen.js:113-119 | each text field is rejected iff empty; priority and category iff not one of their options |
| CreateTaskScreen.TaskPayload | src/screens/CreateTaskScreen.js:123-129 | the payload has exactly the five keys, the due date under `due_date` |
| CreateTaskScreen.PayloadRoundTrip | src/screens/CreateTaskScreen.js:123-129 | the form can be read back unchanged from its payload |
| CreateTaskScreen.InitialFormIsRejected | src/screens/CreateTaskScreen.js:151-157 | the empty initial values fail on all five fields |
| CreateTaskScreen.OpenPicker | src/screens/CreateTaskScreen.js:35-50 | pressing a picker opens its own modal and leaves the form and the other picker's modal alone |
| CreateTaskScreen.HandleSelect | src/screens/CreateTaskScreen.js:37-40 | selecting sets exactly the picker's field, closes its modal and changes nothing else |
| CreateTaskScreen.SelectingAnOptionValidatesTheField | src/screens/CreateTaskScreen.js:37-40 | choosing any offered option clears that field's error; choosing it again changes nothing |
| CreateTaskScreen.PressCreate | src/screens/CreateTaskScreen.js:121-140 | blocked iff the schema rejects, with its errors; otherwise the payload is posted to the create route; success shows the "Task created successfully!" alert and then navigates to Home, and nothing else; failure shows the "Failed to create task" alert and logs the error, and does not navigate |
| CreateTaskScreen.SentPayloadIsValid | src/screens/CreateTaskScreen.js:121-133 | a sent payload carries the form unchanged with an offered priority and category |
| HomeScreen.IsEditing | src/screens/HomeScreen.js:105 | a row is in edit mode exactly when its id equals the edited id; no row is while that id is null |
| HomeScreen.InitialEditShowsNoRow | src/screens/HomeScreen.js:22-24 | no row starts in edit mode, and editing a task from the start puts exactly the rows with its id in edit mode |
| HomeScreen.StartEditing | src/screens/HomeScreen.js:62-66 | the edited texts start from the task's own, and exactly the rows with that task's id are in edit mode |
| HomeScreen.TogglePayload | src/screens/HomeScreen.js:34 | the toggle sends the id and the negated completion flag, nothing else |
| HomeScreen.HandleCompleteTask | src/screens/HomeScreen.js:32-39 | a PUT to the task's path flipping only its completion flag; refetch iff success, an alert on failure |
| HomeScreen.EditPayload | src/screens/HomeScreen.js:70 | the update sends the edited id (or null) and the two edited texts |
| HomeScreen.HandleUpdateTask | src/screens/HomeScreen.js:68-76 | a PUT of the two edited texts to the edited task; success refetches and leaves edit mode with the texts kept; failure alerts and keeps the state |
| HomeScreen.DeleteRequest | src/screens/HomeScreen.js:51 | the request of a confirmed delete reaches the delete route of that id |
| HomeScreen.HandleDeleteTask | src/screens/HomeScreen.js:41-60 | the confirmation is always asked; a request is sent iff confirmed, to that task's delete route; refetch iff confirmed and the call did not reject, the failure alert iff confirmed and it rejected |
| HomeScreen.DeleteTargetsTheEditedTask | src/screens/HomeScreen.js:41-76 | a delete of a task and a saved edit of it address the same path and the same id |
| HomeScreen.AtMostOneEditing | src/screens/HomeScreen.js:105 | among tasks with distinct ids, at most one row is in edit mode |
| HomeScreen.UpdateOutcomeOnEditMode | src/screens/HomeScreen.js:71-75 | a successful update leaves no row in edit mode; a failed one leaves the same rows as before |
| HomeScreen.UnchangedEditResendsTheTask | src/screens/HomeScreen.js:62-70 | saving an unchanged edit sends the task's own title and description to its own path |
| RegisterScreen.RegisterErrors | src/screens/RegisterScreen.js:27-33 | name, username and e-mail are rejected iff empty, the mobile iff not all digits, the password iff its `length` in UTF-16 code units is below 6 |
| RegisterScreen.PasswordLengthCountsCodeUnits | src/screens/RegisterScreen.js:32 | three characters beyond the Basic Multilingual Plane make a long enough password; fewer than three characters never do |
| RegisterScreen.InitialFormIsRejected | src/screens/RegisterScreen.js:26-33 | the empty initial values fail on all five fields |
| RegisterScreen.ValidationExamples | src/screens/RegisterScreen.js:30-32 | a dash in the mobile number fails, a digits-only one passes, a five-character password fails |
| RegisterScreen.HandleImagePick | src/screens/RegisterScreen.js:12-21 | the selection changes only to the first asset of a pick that was not cancelled and returned assets, and always does then |
| RegisterScreen.ImageName | src/screens/RegisterScreen.js:47 | the asset's file name unless missing or empty, else "profile.jpg" |
| RegisterScreen.RegisterFormData | src/screens/RegisterScreen.js:36-49 | the five text fields in order, then the image part iff an image was picked |
| RegisterScreen.FormDataRoundTrip | src/screens/RegisterScreen.js:36-49 | every field reads back unchanged from the form data, and an image part is present iff one was picked |
| RegisterScreen.PressRegister | src/screens/RegisterScreen.js:34-55 | blocked iff the schema rejects; otherwise the form data goes to sign-up; an accepted form navigates to Login and does nothing else; a rejected one only logs the error |
| LoginScreen.LoginErrors | src/screens/LoginScreen.js:20-23 | each field is rejected iff empty |
| LoginScreen.LoginPayload | src/screens/LoginScreen.js:26 | the credentials carry exactly `emailOrusername` and `password`, unchanged |
| LoginScreen.PressLogin | src/screens/LoginScreen.js:24-33 | blocked iff the schema rejects; otherwise the credentials go to sign-in; a rejection logs and changes nothing; an answer is dispatched whole as `login`, logging iff it is nullish, and a non-nullish one authenticates with its `user` property; the resulting store is exactly the `login` dispatch over the previous one, so the serialised user is persisted under "user" |
| LoginScreen.InitialFormIsRejected | src/screens/LoginScreen.js:19-23 | the empty initial values fail on both fields |
| LoginScreen.FailedLoginChangesNothing | src/screens/LoginScreen.js:30-32 | a rejected sign-in only logs |
| LoginScreen.SignedInViewIff | src/screens/LoginScreen.js:27-29 | after a sign-in the slice is authenticated, but the tabs show iff the answer's `user` is truthy and coherence holds iff it is not nullish |
| LoginScreen.TopLevelUserAnswerStaysOnAuthStack | src/screens/LoginScreen.js:29 | an answer with the user's fields at top level leaves an incoherent session on the sign-in stack, and a relaunch is signed out |
| LoginScreen.NestedUserAnswerSignsIn | src/screens/LoginScreen.js:27-29 | an answer `{user: u}` signs in, shows the tabs, and a relaunch restores u |

## Left out

- AuthSlice.LoginReducer: when the payload's `user` is undefined, `JSON.stringify` yields no string. The model then leaves storage unchanged; what the native storage module does with such a value is not part of this model.
- RegisterScreen.RegisterErrors: the e-mail format check (`Yup.string().email()`) is not modelled. A non-empty e-mail is accepted, so the e-mail clause is weaker than the schema.
- JsValues.Member: prototype properties (`length`, inherited methods) are not modelled. A property not among an object's own fields reads as undefined.
- The internals of `JSON.stringify`/`JSON.parse` are abstract. The lemmas that need them assume only `JsonCodec.Lawful`.
- Numbers are integers. Floating-point values do not occur in the modelled logic.
- Storage writes are synchronous and never fail. The real writes are fire-and-forget promises. Their failures and their ordering against later reads are not modelled.
- RTK Query's cache, request de-duplication, focus-triggered refetches and the network are not modelled. `Refetch` is an effect, and the server's answer is a parameter (`serverOk`, `response`, `rejects`).
- Base-URL joining is not modelled. The base URLs are constants, and descriptors carry the relative path.
- HomeScreen.HandleDeleteTask: whether a call awaited without `unwrap` can reject is a library behaviour that this source does not show, so it is a parameter.
- Each `console.error` call is the `LogError` effect; messages and error objects are not kept. `console.log` calls are not modelled.
- Formik's touched/dirty state and the rendering of error texts are left out. A press is modelled as validation followed by the handler.
- Tasks are typed records. The raw JSON shape and the `_id` field name are not modelled.
- `App.tsx` as shown defines and mounts its own `AppContent` (App.tsx:8-24), which has no `loading` flag and no session restore; no shown file imports `AppContent.tsx`. Whether the modelled bootstrap runs at all depends on an entry file that is not shown. The model is of `AppContent.tsx`'s root component.
- `src/store/store.tsx` is not part of this model: it combines the reducers and the two API middlewares into one store.
- `src/navigation/MainTabs.js` is not part of this model: it only declares the tabs and stacks that hold the screens.
- `ProfileScreen.js` is not part of this model: it shows the fields of the slice's user, or a message when there is none.
- `src/utils/asyncStorage.js` is not part of this model: it holds `saveTasks`/`loadTasks` helpers over a separate `"tasks"` key, falling back to `[]`, and no shown file imports it.
- `CompletedTasks.js` and `TaskListScreen.js` are not part of this model: both list completed tasks and send `deleteTask` awaited without `unwrap`, as `HomeScreen.HandleDeleteTask` does (CompletedTasks.js:11-17, TaskListScreen.js:9-15), with only a logged error on rejection.
- `getTasksByCategory` is never called by the shown screens; only its descriptor is modelled.
- Styling, modals, lists and icons are not modelled.

=== FILE: app_content.dfy ===
/** The root component: a `loading` flag that starts true, a one-off
    `loadUser` effect that restores the session from durable storage, and
    the choice of navigator once loading is over. */
module AppContent {
  import opened Wrappers
  import opened JsValues
  import opened JsonCodec
  import opened AuthSlice

  /** What the root renders: a spinner, the signed-in tabs or the sign-in stack. */
  datatype View = Spinner | MainTabs | AuthStack

  datatype Shell = Shell(loading: bool, store: Store)

  /** What `AsyncStorage.getItem("user")` delivered: the stored text (None for
      `null`), or a rejected read. */
  datatype Read = Stored(text: Option<string>) | ReadFailed

  /** What the `try` block of `loadUser` did: the actions it dispatched and
      whether the `catch` logged an error. */
  datatype LoadResult = LoadResult(dispatched: seq<Action>, loggedError: bool)

  /** The app as first rendered, over whatever storage holds. */
  function Mount(storage: Storage): (s: Shell)
    ensures s.loading && s.store.auth == Initial() && s.store.storage == storage
  {
    Shell(true, Store(Initial(), storage))
  }

  /** The rendered tree: the spinner while loading, then `MainTabs` exactly
      when the user is truthy. */
  function Render(s: Shell): (v: View)
    ensures v == Spinner <==> s.loading
    ensures v == MainTabs <==> !s.loading && Truthy(s.store.auth.user)
    ensures v == AuthStack <==> !s.loading && !Truthy(s.store.auth.user)
  {
    if s.loading then Spinner
    else if Truthy(s.store.auth.user) then MainTabs
    else AuthStack
  }

  /** `AsyncStorage.getItem("user")` on a read that succeeds. */
  function ReadUser(storage: Storage): (t: Option<string>)
    ensures t.Some? <==> UserKey in storage
    ensures t.Some? ==> t.value == storage[UserKey]
  {
    if UserKey in storage then Some(storage[UserKey]) else None
  }

  /** The body of `loadUser`: a truthy (non-empty) stored text is parsed and
      handed to `setUserFromStorage`; a failed read or parse is caught and
      logged; anything else dispatches nothing. */
  function LoadUserBody(read: Read, codec: Codec): (r: LoadResult)
    ensures |r.dispatched| <= 1
    ensures |r.dispatched| == 1 <==>
              read.Stored? && read.text.Some? && read.text.value != "" && codec.parse(read.text.value).Some?
    ensures |r.dispatched| == 1 ==>
              r.dispatched[0] == SetUserFromStorage(codec.parse(read.text.value).value)
    ensures r.loggedError <==>
              read.ReadFailed? || (read.text.Some? && read.text.value != "" && codec.parse(read.text.value).None?)
    ensures !(r.loggedError && |r.dispatched| == 1)
  {
    match read
    case ReadFailed => LoadResult([], true)
    case Stored(None) => LoadResult([], false)
    case Stored(Some(text)) =>
      if text == "" then LoadResult([], false)
      else match codec.parse(text)
        case None => LoadResult([], true)
        case Some(user) => LoadResult([SetUserFromStorage(user)], false)
  }

  /** `loadUser` as a whole: run the body, then `setLoading(false)` whatever
      happened. */
  function LoadUser(s: Shell, read: Read, codec: Codec): (r: Shell)
    ensures !r.loading
    ensures r.store.storage == s.store.storage
    ensures LoadUserBody(read, codec).dispatched == [] ==> r.store == s.store
    ensures LoadUserBody(read, codec).dispatched != [] ==>
              var user := codec.parse(read.text.value).value;
              r.store.auth.user == user && r.store.auth.isAuthenticated == !user.Null?
  {
    var body := LoadUserBody(read, codec);
    var store := if body.dispatched == [] then s.store else Dispatch(s.store, body.dispatched[0], codec);
    Shell(false, store)
  }

  /** A launch: mount over `storage`, then run `loadUser` with a read that
      fails when `readFails` holds. */
  function Launch(storage: Storage, readFails: bool, codec: Codec): (s: Shell)
    ensures !s.loading && s.store.storage == storage
    ensures readFails || UserKey !in storage || storage[UserKey] == "" || codec.parse(storage[UserKey]).None? ==>
              s.store.auth == Initial()
    ensures !readFails && UserKey in storage && storage[UserKey] != "" && codec.parse(storage[UserKey]).Some? ==>
              s.store.auth.user == codec.parse(storage[UserKey]).value
  {
    var read := if readFails then ReadFailed else Stored(ReadUser(storage));
    LoadUser(Mount(storage), read, codec)
  }

  /** Actions dispatched after loading, in order (sign-in, sign-out). */
  function Run(s: Shell, actions: seq<Action>, codec: Codec): Shell
    decreases |actions|
  {
    if |actions| == 0 then s
    else Run(Shell(s.loading, Dispatch(s.store, actions[0], codec)), actions[1..], codec)
  }

  // ---------------------------------------------------------------------
  // Properties of the bootstrap

  /** No action ever sets `loading` back. */
  lemma {:induction false} RunKeepsLoading(s: Shell, actions: seq<Action>, codec: Codec)
    ensures Run(s, actions, codec).loading == s.loading
    decreases |actions|
  {
    if |actions| > 0 {
      RunKeepsLoading(Shell(s.loading, Dispatch(s.store, actions[0], codec)), actions[1..], codec);
    }
  }

  /** `loading` goes from true to false once: the first render is the
      spinner, and after `loadUser` no sequence of actions shows it again. */
  lemma LoadingEndsOnce(storage: Storage, readFails: bool, actions: seq<Action>, codec: Codec)
    ensures Render(Mount(storage)) == Spinner
    ensures Render(Run(Launch(storage, readFails, codec), actions, codec)) != Spinner
  {
    RunKeepsLoading(Launch(storage, readFails, codec), actions, codec);
  }

  /** A failed read lands on the sign-in stack with the error logged. */
  lemma ReadFailureLandsOnAuthStack(storage: Storage, codec: Codec)
    ensures LoadUserBody(ReadFailed, codec).loggedError
    ensures Render(Launch(storage, true, codec)) == AuthStack
  {
  }

  /** A stored record that does not parse is logged and lands on the sign-in
      stack. */
  lemma CorruptRecordLandsOnAuthStack(storage: Storage, codec: Codec)
    requires UserKey in storage && storage[UserKey] != ""
    requires codec.parse(storage[UserKey]).None?
    ensures LoadUserBody(Stored(ReadUser(storage)), codec).loggedError
    ensures Render(Launch(storage, false, codec)) == AuthStack
  {
  }

  /** No record, or an empty one, dispatches nothing. */
  lemma MissingRecordDispatchesNothing(storage: Storage, codec: Codec)
    requires UserKey !in storage || storage[UserKey] == ""
    ensures LoadUserBody(Stored(ReadUser(storage)), codec) == LoadResult([], false)
    ensures Launch(storage, false, codec).store == Store(Initial(), storage)
    ensures Render(Launch(storage, false, codec)) == AuthStack
  {
  }

  /** A stored "null" is restored as a null user: the flag stays false and
      the sign-in stack is shown. */
  lemma StoredNullLandsOnAuthStack(storage: Storage, codec: Codec)
    requires UserKey in storage && storage[UserKey] == "null"
    requires codec.parse("null") == Some(Null)
    ensures LoadUserBody(Stored(ReadUser(storage)), codec).dispatched == [SetUserFromStorage(Null)]
    ensures !Launch(storage, false, codec).store.auth.isAuthenticated
    ensures Render(Launch(storage, false, codec)) == AuthStack
  {
  }

  /** Session persistence round trip: after `login` with a payload whose
      `user` is the JSON value `u`, a relaunch over the resulting storage
      restores exactly `u`, coherently. */
  lemma LoginThenRelaunch(st: Store, payload: Value, u: Value, codec: Codec)
    requires Lawful(codec)
    requires Member(payload, "user") == Ok(u) && IsJson(u)
    ensures LoginReducer(st, payload, codec).Ok?
    ensures var relaunched := Launch(LoginReducer(st, payload, codec).value.storage, false, codec);
            && relaunched.store.auth.user == u
            && Coherent(relaunched.store.auth)
            && (Render(relaunched) == MainTabs <==> Truthy(u))
  {
    var storage := LoginReducer(st, payload, codec).value.storage;
    var text := codec.stringify(u).value;
    assert storage[UserKey] == text;
    assert codec.parse(text) == Some(u);
  }

  /** After `logout`, a relaunch is signed out. */
  lemma LogoutThenRelaunch(st: Store, codec: Codec)
    ensures var relaunched := Launch(LogoutReducer(st).storage, false, codec);
            && !relaunched.store.auth.isAuthenticated
            && Render(relaunched) == AuthStack
  {
  }
}

=== FILE: auth_api.dfy ===
/** The auth API: sign-in and sign-up, relative to the backend's `user/`
    prefix. */
module AuthApi {
  import opened Wrappers
  import opened JsValues
  import opened Requests
  import TasksApi

  const AuthBase: string := "https://task-manager-backend-nest-js-1.onrender.com/user/"

  const SignInPath: string := "signin"
  const SignUpPath: string := "signup"

  /** What an auth request asks for, with the payload it carries. */
  datatype AuthRoute = SignIn(credentials: Value) | SignUp(form: seq<Part>)

  /** The `login` endpoint: the credentials go out unchanged as JSON. */
  function LoginQuery(credentials: Value): (r: Request)
    ensures r.verb == Some(POST) && r.headers == map[ContentType := JsonContent]
    ensures r.body == Some(JsonBody(credentials))
  {
    Request(SignInPath, Some(POST), map[ContentType := JsonContent], Some(JsonBody(credentials)))
  }

  /** The `register` endpoint: the form data go out unchanged as multipart. */
  function RegisterQuery(form: seq<Part>): (r: Request)
    ensures r.verb == Some(POST) && r.headers == map[ContentType := MultipartContent]
    ensures r.body == Some(FormBody(form))
  {
    Request(SignUpPath, Some(POST), map[ContentType := MultipartContent], Some(FormBody(form)))
  }

  /** Reads an auth request back by method, path, content type and body. */
  function AuthRouteOf(r: Request): Option<AuthRoute> {
    if EffectiveMethod(r) != POST || ContentType !in r.headers || r.body.None? then None
    else if r.url == SignInPath && r.headers[ContentType] == JsonContent && r.body.value.JsonBody? then
      Some(SignIn(r.body.value.json))
    else if r.url == SignUpPath && r.headers[ContentType] == MultipartContent && r.body.value.FormBody? then
      Some(SignUp(r.body.value.parts))
    else None
  }

  /** Both builders are read back as the operation they serve, with the
      payload intact. */
  lemma AuthQueriesRoundTrip(credentials: Value, form: seq<Part>)
    ensures AuthRouteOf(LoginQuery(credentials)) == Some(SignIn(credentials))
    ensures AuthRouteOf(RegisterQuery(form)) == Some(SignUp(form))
  {
  }

  /** The two builders agree on the method and differ only in path, content
      type and body. */
  lemma LoginAndRegisterDifferOnlyInPathAndContent(credentials: Value, form: seq<Part>)
    ensures LoginQuery(credentials).verb == RegisterQuery(form).verb == Some(POST)
    ensures LoginQuery(credentials).headers.Keys == RegisterQuery(form).headers.Keys
    ensures LoginQuery(credentials).url != RegisterQuery(form).url
    ensures LoginQuery(credentials).headers[ContentType] != RegisterQuery(form).headers[ContentType]
  {
    assert SignInPath[4] != SignUpPath[4];
    assert JsonContent[0] != MultipartContent[0];
  }

  /** The auth base is the tasks base followed by "user/", so the two groups
      share a host and never a base. */
  lemma AuthBaseUnderTasksBase()
    ensures AuthBase == TasksApi.TasksBase + "user/"
    ensures AuthBase != TasksApi.TasksBase
  {
    assert |AuthBase| != |TasksApi.TasksBase|;
  }
}

=== FILE: auth_slice.dfy ===
/** The `auth` slice of the Redux store: the signed-in user, an
    authenticated flag, and the copy of the user kept in durable storage
    under the key "user". Storage writes are fire-and-forget in the client;
    here they are immediate updates of the storage map. */
module AuthSlice {
  import opened Wrappers
  import opened JsValues
  import opened JsonCodec

  /** Durable key/value storage (AsyncStorage). */
  type Storage = map<string, string>

  const UserKey: string := "user"

  datatype AuthState = AuthState(user: Value, isAuthenticated: bool)

  /** The slice together with the durable storage its reducers write. */
  datatype Store = Store(auth: AuthState, storage: Storage)

  datatype Action =
    | Login(payload: Value)
    | Logout
    | SetUserFromStorage(payload: Value)

  /** The state the slice starts in. */
  function Initial(): (a: AuthState)
    ensures Nullish(a.user) && !Truthy(a.user) && !a.isAuthenticated
  {
    AuthState(Null, false)
  }

  /** The invariant the slice is designed around: authenticated exactly when
      there is a user (`user != null`, loose equality). */
  predicate Coherent(a: AuthState) {
    a.isAuthenticated == !Nullish(a.user)
  }

  /** `AsyncStorage.setItem(key, text)`. When `JSON.stringify` produced no
      string there is nothing to store and the entry is left as it was. */
  function SetItem(storage: Storage, key: string, text: Option<string>): (r: Storage)
    ensures r - {key} == storage - {key}
    ensures text.Some? ==> key in r && r[key] == text.value
    ensures text.None? ==> r == storage
  {
    match text
    case Some(t) => storage[key := t]
    case None => storage
  }

  /** The `login` reducer. Reading `action.payload.user` throws on a
      `null`/`undefined` payload, before anything is changed; otherwise the
      user is whatever the payload's `user` property holds, the flag is set
      unconditionally, and the serialised user is written under "user". */
  function LoginReducer(st: Store, payload: Value, codec: Codec): (r: Result<Store, JsError>)
    ensures r.Err? <==> Nullish(payload)
    ensures r.Ok? ==> r.value.auth.isAuthenticated
    ensures r.Ok? ==> Member(payload, "user") == Ok(r.value.auth.user)
    ensures r.Ok? ==> r.value.storage - {UserKey} == st.storage - {UserKey}
    ensures r.Ok? && codec.stringify(r.value.auth.user).Some? ==>
              UserKey in r.value.storage && r.value.storage[UserKey] == codec.stringify(r.value.auth.user).value
  {
    match Member(payload, "user")
    case Err(e) => Err(e)
    case Ok(user) =>
      Ok(Store(AuthState(user, true), SetItem(st.storage, UserKey, codec.stringify(user))))
  }

  /** The `logout` reducer: clears the session and removes "user". */
  function LogoutReducer(st: Store): (r: Store)
    ensures r.auth.user.Null? && !r.auth.isAuthenticated
    ensures UserKey !in r.storage
    ensures forall k :: k != UserKey ==> (k in r.storage <==> k in st.storage)
    ensures forall k :: k in r.storage ==> r.storage[k] == st.storage[k]
  {
    Store(AuthState(Null, false), st.storage - {UserKey})
  }

  /** The `setUserFromStorage` reducer: takes the user as given, sets the
      flag by strict comparison `payload !== null`, and writes nothing. */
  function RestoreReducer(st: Store, payload: Value): (r: Store)
    ensures r.auth.user == payload
    ensures r.auth.isAuthenticated <==> !payload.Null?
    ensures r.storage == st.storage
  {
    Store(AuthState(payload, !payload.Null?), st.storage)
  }

  /** The slice reducer. An `Err` is the exception `dispatch` rethrows; the
      store then keeps its previous state. */
  function Reduce(st: Store, action: Action, codec: Codec): (r: Result<Store, JsError>)
    ensures r.Err? <==> action.Login? && Nullish(action.payload)
    ensures r.Ok? && action.SetUserFromStorage? ==> r.value.storage == st.storage
  {
    match action
    case Login(p) => LoginReducer(st, p, codec)
    case Logout => Ok(LogoutReducer(st))
    case SetUserFromStorage(p) => Ok(RestoreReducer(st, p))
  }

  /** The store after `dispatch(action)`: unchanged when the reducer threw. */
  function Dispatch(st: Store, action: Action, codec: Codec): (r: Store)
    ensures action.Login? && Nullish(action.payload) ==> r == st
    ensures !(action.Login? && Nullish(action.payload)) ==> Reduce(st, action, codec) == Ok(r)
  {
    match Reduce(st, action, codec)
    case Ok(s) => s
    case Err(_) => st
  }

  // ---------------------------------------------------------------------
  // Properties of the reducers

  /** `logout` is idempotent. */
  lemma LogoutIdempotent(st: Store)
    ensures LogoutReducer(LogoutReducer(st)) == LogoutReducer(st)
  {
  }

  /** `logout` and `setUserFromStorage` restore coherence from any state
      (a payload produced by `JSON.parse` is never `undefined`). */
  lemma LogoutAndRestoreAreCoherent(st: Store, payload: Value)
    requires !payload.Undefined?
    ensures Coherent(LogoutReducer(st).auth)
    ensures Coherent(RestoreReducer(st, payload).auth)
  {
  }

  /** `login` keeps the invariant exactly when its payload carries a
      non-null `user` property: the reducer never checks it. */
  lemma LoginCoherentIff(st: Store, payload: Value, codec: Codec)
    requires !Nullish(payload)
    ensures LoginReducer(st, payload, codec).Ok?
    ensures Coherent(LoginReducer(st, payload, codec).value.auth)
            <==> !Nullish(Member(payload, "user").value)
  {
  }

  /** A payload without a `user` property leaves the slice authenticated
      with no user, and nothing is written to storage. */
  lemma LoginWithoutUserField(st: Store, codec: Codec)
    requires Lawful(codec)
    ensures var r := LoginReducer(st, Obj(map["name" := Str("Ada")]), codec);
            && r.Ok?
            && r.value.auth.isAuthenticated
            && r.value.auth.user.Undefined?
            && !Coherent(r.value.auth)
            && r.value.storage == st.storage
  {
    var payload := Obj(map["name" := Str("Ada")]);
    assert "user" !in payload.fields;
    assert codec.stringify(Undefined).None?;
  }

  /** Dispatching keeps the slice coherent unless a `login` payload lacks a
      user: `login` is the only way to break the invariant. */
  lemma CoherentUnlessLogin(st: Store, action: Action, codec: Codec)
    requires Coherent(st.auth)
    requires action.SetUserFromStorage? ==> !action.payload.Undefined?
    requires action.Login? ==> Nullish(action.payload) || !Nullish(Member(action.payload, "user").value)
    ensures Coherent(Dispatch(st, action, codec).auth)
  {
  }
}

=== FILE: categories_screen.dfy ===
/** The categories screen: the distinct categories of the fetched tasks, in
    the order a JavaScript `Set` keeps them, and the navigation a tap on one
    of them performs. */
module CategoriesScreen {
  import opened Wrappers
  import opened Tasks
  import Ui

  datatype CategoryItem = CategoryItem(name: string)

  predicate NoDuplicates<T(==)>(xs: seq<T>) {
    forall i, j :: 0 <= i < j < |xs| ==> xs[i] != xs[j]
  }

  /** The elements of `xs` in order of first occurrence: what
      `[...new Set(xs)]` yields. */
  function FirstOccurrences(xs: seq<string>): (r: seq<string>)
    ensures NoDuplicates(r)
    ensures forall x :: x in r <==> x in xs
    ensures |r| <= |xs|
    decreases |xs|
  {
    if |xs| == 0 then []
    else
      var prior := FirstOccurrences(xs[..|xs| - 1]);
      var x := xs[|xs| - 1];
      assert forall y :: y in xs <==> y in xs[..|xs| - 1] || y == x;
      if x in prior then prior else prior + [x]
  }

  /** The position where `x` first occurs in `xs`. */
  function FirstIndex(xs: seq<string>, x: string): (i: nat)
    requires x in xs
    ensures i < |xs| && xs[i] == x && x !in xs[..i]
  {
    if xs[0] == x then 0
    else
      var i := 1 + FirstIndex(xs[1..], x);
      assert xs[..i] == [xs[0]] + xs[1..][..i - 1];
      i
  }

  /** `tasks.map(task => task.category)`. */
  function CategoryNames(tasks: seq<Task>): (names: seq<string>)
    ensures |names| == |tasks|
    ensures forall i :: 0 <= i < |tasks| ==> names[i] == tasks[i].category
  {
    seq(|tasks|, i requires 0 <= i < |tasks| => tasks[i].category)
  }

  function ToItems(names: seq<string>): (items: seq<CategoryItem>)
    ensures |items| == |names|
    ensures forall i :: 0 <= i < |names| ==> items[i].name == names[i]
  {
    seq(|names|, i requires 0 <= i < |names| => CategoryItem(names[i]))
  }

  /** The category list, as a reference definition: empty while there is no
      data. */
  function Categories(tasks: Option<seq<Task>>): seq<CategoryItem> {
    match tasks
    case None => []
    case Some(ts) => ToItems(FirstOccurrences(CategoryNames(ts)))
  }

  /** Builds the list the way the screen does: one pass, a set of names
      already seen, each new name appended. */
  method ExtractCategories(tasks: Option<seq<Task>>) returns (items: seq<CategoryItem>)
    ensures items == Categories(tasks)
    ensures tasks.None? ==> items == []
    ensures tasks.Some? ==> |items| <= |tasks.value|
    ensures NoDuplicates(items)
    ensures tasks.Some? ==> forall t :: t in tasks.value ==> CategoryItem(t.category) in items
    ensures tasks.Some? ==> forall k :: 0 <= k < |items| ==>
              exists t :: t in tasks.value && t.category == items[k].name
  {
    if tasks.None? {
      return [];
    }
    var ts := tasks.value;
    var all := CategoryNames(ts);
    var names: seq<string> := [];
    var seen: set<string> := {};
    var i := 0;
    while i < |ts|
      invariant 0 <= i <= |ts|
      invariant names == FirstOccurrences(all[..i])
      invariant forall n :: n in seen <==> n in names
    {
      var c := ts[i].category;
      assert all[..i + 1][..i] == all[..i];
      assert all[..i + 1][i] == c;
      if c !in seen {
        names := names + [c];
        seen := seen + {c};
      }
      i := i + 1;
    }
    assert all[..|ts|] == all;
    items := ToItems(names);
    forall t | t in ts
      ensures CategoryItem(t.category) in items
    {
      var k :| 0 <= k < |ts| && ts[k] == t;
      assert all[k] == t.category;
      assert t.category in names;
      var j :| 0 <= j < |names| && names[j] == t.category;
      assert items[j] == CategoryItem(t.category);
    }
    forall k | 0 <= k < |items|
      ensures exists t :: t in ts && t.category == items[k].name
    {
      assert names[k] in all;
      var m :| 0 <= m < |all| && all[m] == names[k];
      assert ts[m] in ts;
    }
  }

  // ---------------------------------------------------------------------
  // Order of first occurrence

  lemma FirstIndexUnique(xs: seq<string>, x: string, k: nat)
    requires k < |xs| && xs[k] == x && x !in xs[..k]
    ensures FirstIndex(xs, x) == k
  {
  }

  /** Appending an element does not move the first occurrence of one
      already present. */
  lemma FirstIndexOfExtension(xs: seq<string>, x: string, y: string)
    requires y in xs
    ensures y in xs + [x]
    ensures FirstIndex(xs + [x], y) == FirstIndex(xs, y)
  {
    var k := FirstIndex(xs, y);
    assert (xs + [x])[..k] == xs[..k];
    FirstIndexUnique(xs + [x], y, k);
  }

  /** Of two names in `r`, the one listed earlier occurs earlier in `xs`. */
  predicate InFirstOccurrenceOrder(xs: seq<string>, r: seq<string>)
    requires forall x :: x in r ==> x in xs
  {
    forall i, j :: 0 <= i < j < |r| ==> FirstIndex(xs, r[i]) < FirstIndex(xs, r[j])
  }

  /** The list keeps first-occurrence order, as a `Set` keeps insertion
      order. */
  lemma {:induction false} FirstOccurrenceOrder(xs: seq<string>)
    ensures InFirstOccurrenceOrder(xs, FirstOccurrences(xs))
    decreases |xs|
  {
    if |xs| > 0 {
      var n := |xs| - 1;
      var prefix := xs[..n];
      var x := xs[n];
      var prior := FirstOccurrences(prefix);
      assert prefix + [x] == xs;
      FirstOccurrenceOrder(prefix);
      assert InFirstOccurrenceOrder(prefix, prior);
      forall y | y in prior
        ensures y in xs && FirstIndex(xs, y) == FirstIndex(prefix, y)
      {
        FirstIndexOfExtension(prefix, x, y);
      }
      var r := FirstOccurrences(xs);
      if x !in prior {
        assert x !in prefix;
        FirstIndexUnique(xs, x, n);
      }
      forall i, j | 0 <= i < j < |r|
        ensures FirstIndex(xs, r[i]) < FirstIndex(xs, r[j])
      {
        assert r[i] == prior[i];
        assert FirstIndex(xs, prior[i]) == FirstIndex(prefix, prior[i]);
        if j < |prior| {
          assert r[j] == prior[j];
          assert FirstIndex(xs, prior[j]) == FirstIndex(prefix, prior[j]);
          assert FirstIndex(prefix, prior[i]) < FirstIndex(prefix, prior[j]);
        } else {
          assert r[j] == x && FirstIndex(xs, x) == n;
        }
      }
    }
  }

  /** The navigation a tap on `item` performs. */
  function SelectCategory(item: CategoryItem): (e: Ui.Effect)
    ensures e.Navigate? && e.route == "TaskList"
    ensures e.params.Keys == {"categoryId", "categoryName"}
    ensures e.params["categoryId"] == item.name && e.params["categoryName"] == item.name
  {
    Ui.Navigate("TaskList", map["categoryId" := item.name, "categoryName" := item.name])
  }

  /** Tapping a listed category opens the task list with id and display
      name both equal to a category some task carries. */
  lemma SelectionNamesARealCategory(tasks: seq<Task>, k: nat)
    requires k < |Categories(Some(tasks))|
    ensures var e := SelectCategory(Categories(Some(tasks))[k]);
            && e.route == "TaskList"
            && e.params["categoryId"] == e.params["categoryName"]
            && exists t :: t in tasks && t.category == e.params["categoryId"]
  {
    var name := FirstOccurrences(CategoryNames(tasks))[k];
    assert name in CategoryNames(tasks);
    var m :| 0 <= m < |tasks| && CategoryNames(tasks)[m] == name;
    assert tasks[m] in tasks;
  }
}

=== FILE: create_task_screen.dfy ===
/** The create-task screen: a five-field form, its validation schema, two
    option pickers, and the submit handler that sends the task and reports
    the outcome. */
module CreateTaskScreen {
  import opened Wrappers
  import opened JsValues
  import opened Requests
  import TasksApi
  import Ui

  const PriorityOptions: seq<string> := ["High", "Medium", "Low"]

  const CategoryOptions: seq<string> := [
    "Work",
    "Personal",
    "Health & Fitness",
    "Finance",
    "Education",
    "Home & Family",
    "Shopping",
    "Social & Entertainment",
    "Urgent",
    "Miscellaneous"
  ]

  datatype TaskField = Title | Description | DueDate | Priority | Category

  /** The form values; every input delivers a string. */
  datatype TaskForm = TaskForm(title: string, description: string, dueDate: string, priority: string, category: string)

  function InitialForm(): TaskForm {
    TaskForm("", "", "", "", "")
  }

  /** The fields the schema rejects: text fields must be non-empty, the two
      picked fields must be one of their options. */
  function TaskFormErrors(f: TaskForm): (errs: set<TaskField>)
    ensures Title in errs <==> f.title == ""
    ensures Description in errs <==> f.description == ""
    ensures DueDate in errs <==> f.dueDate == ""
    ensures Priority in errs <==> f.priority !in PriorityOptions
    ensures Category in errs <==> f.category !in CategoryOptions
  {
    (if f.title == "" then {Title} else {})
    + (if f.description == "" then {Description} else {})
    + (if f.dueDate == "" then {DueDate} else {})
    + (if f.priority !in PriorityOptions then {Priority} else {})
    + (if f.category !in CategoryOptions then {Category} else {})
  }

  /** The object the submit handler sends. */
  function TaskPayload(f: TaskForm): (v: Value)
    ensures v.Obj? && v.fields.Keys == {"title", "description", "due_date", "priority", "category"}
  {
    Obj(map[
      "title" := Str(f.title),
      "description" := Str(f.description),
      "due_date" := Str(f.dueDate),
      "priority" := Str(f.priority),
      "category" := Str(f.category)])
  }

  /** Reads a form back out of a task payload; None unless all five fields
      are strings. */
  function FormOfPayload(v: Value): Option<TaskForm> {
    if !v.Obj? then None
    else
      var m := v.fields;
      if "title" in m && m["title"].Str? && "description" in m && m["description"].Str?
         && "due_date" in m && m["due_date"].Str? && "priority" in m && m["priority"].Str?
         && "category" in m && m["category"].Str? then
        Some(TaskForm(m["title"].s, m["description"].s, m["due_date"].s, m["priority"].s, m["category"].s))
      else None
  }

  /** The payload carries the form's values unchanged. */
  lemma PayloadRoundTrip(f: TaskForm)
    ensures FormOfPayload(TaskPayload(f)) == Some(f)
  {
  }

  /** The all-empty initial values fail on every field. */
  lemma InitialFormIsRejected()
    ensures TaskFormErrors(InitialForm()) == {Title, Description, DueDate, Priority, Category}
  {
    assert "" !in PriorityOptions;
    assert "" !in CategoryOptions;
  }

  // ---------------------------------------------------------------------
  // Pickers

  datatype Picker = PriorityPicker | CategoryPicker

  /** The form plus the two pickers' modal flags. */
  datatype Screen = Screen(form: TaskForm, priorityModal: bool, categoryModal: bool)

  function Options(p: Picker): seq<string> {
    match p
    case PriorityPicker => PriorityOptions
    case CategoryPicker => CategoryOptions
  }

  /** The field a picker edits. */
  function PickedValue(f: TaskForm, p: Picker): string {
    match p
    case PriorityPicker => f.priority
    case CategoryPicker => f.category
  }

  function ModalOpen(s: Screen, p: Picker): bool {
    match p
    case PriorityPicker => s.priorityModal
    case CategoryPicker => s.categoryModal
  }

  /** Pressing the picker button opens its modal. */
  function OpenPicker(s: Screen, p: Picker): (r: Screen)
    ensures ModalOpen(r, p) && r.form == s.form
    ensures p.PriorityPicker? ==> r.categoryModal == s.categoryModal
    ensures p.CategoryPicker? ==> r.priorityModal == s.priorityModal
  {
    match p
    case PriorityPicker => s.(priorityModal := true)
    case CategoryPicker => s.(categoryModal := true)
  }

  /** `handleSelect(value)`: the picker's field becomes exactly `value`, its
      modal closes, and nothing else changes. */
  function HandleSelect(s: Screen, p: Picker, value: string): (r: Screen)
    ensures PickedValue(r.form, p) == value && !ModalOpen(r, p)
    ensures r.form.title == s.form.title && r.form.description == s.form.description
    ensures r.form.dueDate == s.form.dueDate
    ensures p.PriorityPicker? ==> r.form.category == s.form.category && r.categoryModal == s.categoryModal
    ensures p.CategoryPicker? ==> r.form.priority == s.form.priority && r.priorityModal == s.priorityModal
  {
    match p
    case PriorityPicker => s.(form := s.form.(priority := value), priorityModal := false)
    case CategoryPicker => s.(form := s.form.(category := value), categoryModal := false)
  }

  /** Choosing any offered option clears that field's error, and choosing
      the same option twice is the same as choosing it once. */
  lemma SelectingAnOptionValidatesTheField(s: Screen, p: Picker, k: nat)
    requires k < |Options(p)|
    ensures var r := HandleSelect(s, p, Options(p)[k]);
            && (p.PriorityPicker? ==> Priority !in TaskFormErrors(r.form))
            && (p.CategoryPicker? ==> Category !in TaskFormErrors(r.form))
            && HandleSelect(r, p, Options(p)[k]) == r
  {
  }

  // ---------------------------------------------------------------------
  // Submitting

  /** A press of "Create Task": blocked by validation, or sent with the
      effects that follow the server's answer. */
  datatype Submission = Blocked(errors: set<TaskField>) | Sent(request: Request, effects: seq<Ui.Effect>)

  /** `handleSubmitTask` behind Formik's validation: a valid form is sent
      as its payload; success alerts and navigates to `Home`, failure
      alerts and logs and stays. */
  function PressCreate(f: TaskForm, serverOk: bool): (r: Submission)
    ensures r.Blocked? <==> TaskFormErrors(f) != {}
    ensures r.Blocked? ==> r.errors == TaskFormErrors(f)
    ensures r.Sent? ==> TasksApi.RouteOf(r.request) == Some(TasksApi.Create(TaskPayload(f)))
    ensures r.Sent? ==> (Ui.Navigates(r.effects) <==> serverOk)
    ensures r.Sent? && serverOk ==> r.effects == [Ui.Alert("Success", "Task created successfully!"), Ui.GoTo("Home")]
    ensures r.Sent? && !serverOk ==> r.effects == [Ui.Alert("Error", "Failed to create task"), Ui.LogError]
  {
    var errs := TaskFormErrors(f);
    if errs != {} then Blocked(errs)
    else
      var request := TasksApi.Query(TasksApi.CreateTask(TaskPayload(f)));
      TasksApi.QueryReachesIntendedRoute(TasksApi.CreateTask(TaskPayload(f)));
      if serverOk then
        var effects := [Ui.Alert("Success", "Task created successfully!"), Ui.GoTo("Home")];
        assert effects[1].Navigate?;
        Sent(request, effects)
      else
        Sent(request, [Ui.Alert("Error", "Failed to create task"), Ui.LogError])
  }

  /** A form that passes validation is sent with values the server can read
      back unchanged, each of them acceptable to the schema. */
  lemma SentPayloadIsValid(f: TaskForm, serverOk: bool)
    requires PressCreate(f, serverOk).Sent?
    ensures var body := PressCreate(f, serverOk).request.body;
            && body == Some(JsonBody(TaskPayload(f)))
            && FormOfPayload(body.value.json) == Some(f)
            && f.priority in PriorityOptions && f.category in CategoryOptions
  {
  }
}

=== FILE: home_screen.dfy ===
/** The home screen's task actions: completing a task, and the inline edit
    of one task's title and description. */
module HomeScreen {
  import opened Wrappers
  import opened JsValues
  import opened Requests
  import opened Tasks
  import TasksApi
  import Ui

  /** The edit state: which task is being edited (None for `null`) and the
      two edited texts. */
  datatype EditState = EditState(editingTaskId: Option<string>, editedTitle: string, editedDescription: string)

  function InitialEdit(): EditState {
    EditState(None, "", "")
  }

  /** The `isEditing` flag each task row receives. */
  function IsEditing(s: EditState, t: Task): (b: bool)
    ensures s.editingTaskId.None? ==> !b
    ensures b ==> s.editingTaskId.value == t.id
    ensures s.editingTaskId.Some? && s.editingTaskId.value == t.id ==> b
  {
    s.editingTaskId == Some(t.id)
  }

  /** `startEditing(task)`: edit that task, starting from its current texts. */
  function StartEditing(s: EditState, t: Task): (r: EditState)
    ensures IsEditing(r, t)
    ensures r.editedTitle == t.title && r.editedDescription == t.description
    ensures forall u: Task :: IsEditing(r, u) <==> u.id == t.id
  {
    EditState(Some(t.id), t.title, t.description)
  }

  /** The id an update sends: the edited task's id, or `null`. */
  function EditingIdValue(s: EditState): (v: Value)
    ensures s.editingTaskId.Some? <==> v.Str?
  {
    match s.editingTaskId
    case Some(id) => Str(id)
    case None => Null
  }

  /** A handler's request followed by the effects of the server's answer. */
  datatype Outcome = Outcome(request: Request, effects: seq<Ui.Effect>)

  /** The fields `handleCompleteTask` passes to `updateTask`. */
  function TogglePayload(t: Task): (arg: map<string, Value>)
    ensures arg.Keys == {"id", "Completed_task"}
    ensures arg["id"] == Str(t.id) && arg["Completed_task"] == Bool(!t.completed)
  {
    map["id" := Str(t.id), "Completed_task" := Bool(!t.completed)]
  }

  /** `handleCompleteTask(task)`: a PUT that flips the completion flag of
      exactly this task and sends nothing else; refetch on success, an
      alert on failure. */
  function HandleCompleteTask(t: Task, serverOk: bool): (r: Outcome)
    ensures TasksApi.RouteOf(r.request) == Some(TasksApi.Update(t.id, map["Completed_task" := Bool(!t.completed)]))
    ensures serverOk <==> r.effects == [Ui.Refetch]
    ensures !serverOk ==> r.effects == [Ui.Alert("Error", "Failed to update task.")]
  {
    var call := TasksApi.UpdateTask(TogglePayload(t));
    TasksApi.QueryReachesIntendedRoute(call);
    assert TogglePayload(t) - {"id"} == map["Completed_task" := Bool(!t.completed)];
    var request := TasksApi.Query(call);
    if serverOk then Outcome(request, [Ui.Refetch])
    else Outcome(request, [Ui.Alert("Error", "Failed to update task.")])
  }

  /** The fields `handleUpdateTask` passes to `updateTask`. */
  function EditPayload(s: EditState): (arg: map<string, Value>)
    ensures arg.Keys == {"id", "title", "description"}
    ensures arg["id"] == EditingIdValue(s)
    ensures arg["title"] == Str(s.editedTitle) && arg["description"] == Str(s.editedDescription)
  {
    map["id" := EditingIdValue(s), "title" := Str(s.editedTitle), "description" := Str(s.editedDescription)]
  }

  /** `handleUpdateTask()`: a PUT of the two edited texts to the edited
      task. Success refetches and leaves edit mode (the texts are kept);
      failure alerts and keeps the edit state as it was. */
  function HandleUpdateTask(s: EditState, serverOk: bool): (r: (EditState, Outcome))
    ensures s.editingTaskId.Some? ==>
              TasksApi.RouteOf(r.1.request) == Some(TasksApi.Update(s.editingTaskId.value,
                map["title" := Str(s.editedTitle), "description" := Str(s.editedDescription)]))
    ensures serverOk ==> r.0 == s.(editingTaskId := None) && r.1.effects == [Ui.Refetch]
    ensures !serverOk ==> r.0 == s && r.1.effects == [Ui.Alert("Error", "Failed to update task.")]
  {
    var call := TasksApi.UpdateTask(EditPayload(s));
    TasksApi.QueryReachesIntendedRoute(call);
    assert EditPayload(s) - {"id"} == map["title" := Str(s.editedTitle), "description" := Str(s.editedDescription)];
    var request := TasksApi.Query(call);
    if serverOk then (s.(editingTaskId := None), Outcome(request, [Ui.Refetch]))
    else (s, Outcome(request, [Ui.Alert("Error", "Failed to update task.")]))
  }

  // ---------------------------------------------------------------------
  // Deleting a task

  /** The button pressed in the confirmation dialog. */
  datatype DeleteChoice = Cancel | ConfirmDelete

  /** A press of delete: the confirmation dialog shown, the request sent
      (None when cancelled), then the effects that follow. */
  datatype DeleteOutcome = DeleteOutcome(prompt: Ui.Effect, request: Option<Request>, effects: seq<Ui.Effect>)

  const DeletePrompt: Ui.Effect := Ui.Alert("Delete Task", "Are you sure you want to delete this task?")
  const DeleteFailedAlert: Ui.Effect := Ui.Alert("Error", "Failed to delete task.")

  /** The request a confirmed delete sends, and the route it reaches. */
  function DeleteRequest(taskId: string): (r: Request)
    ensures TasksApi.RouteOf(r) == Some(TasksApi.Delete(taskId))
  {
    TasksApi.QueryReachesIntendedRoute(TasksApi.DeleteTask(Str(taskId)));
    TasksApi.Query(TasksApi.DeleteTask(Str(taskId)))
  }

  /** `handleDeleteTask(taskId)`: a confirmation dialog first; "Cancel"
      does nothing, "Delete" sends the request and then refetches, or shows
      an alert when the awaited call rejects. The result is awaited without
      `unwrap`, so `rejects` says whether that promise rejects. */
  function HandleDeleteTask(taskId: string, choice: DeleteChoice, rejects: bool): (r: DeleteOutcome)
    ensures r.prompt == DeletePrompt
    ensures r.request.Some? <==> choice == ConfirmDelete
    ensures r.request.Some? ==> TasksApi.RouteOf(r.request.value) == Some(TasksApi.Delete(taskId))
    ensures Ui.Refetch in r.effects <==> choice == ConfirmDelete && !rejects
    ensures DeleteFailedAlert in r.effects <==> choice == ConfirmDelete && rejects
    ensures |r.effects| <= 1
  {
    match choice
    case Cancel => DeleteOutcome(DeletePrompt, None, [])
    case ConfirmDelete =>
      DeleteOutcome(DeletePrompt, Some(DeleteRequest(taskId)), if rejects then [DeleteFailedAlert] else [Ui.Refetch])
  }

  /** Deleting and editing the same task address the same path: a confirmed
      delete reaches the task a saved edit of it would update. */
  lemma DeleteTargetsTheEditedTask(s: EditState, t: Task, rejects: bool, serverOk: bool)
    ensures var edit := StartEditing(s, t);
            var del := HandleDeleteTask(t.id, ConfirmDelete, rejects).request.value;
            var upd := HandleUpdateTask(edit, serverOk).1.request;
            && del.url == upd.url
            && TasksApi.RouteOf(del) == Some(TasksApi.Delete(t.id))
            && TasksApi.RouteOf(upd).value.Update?
            && TasksApi.RouteOf(upd).value.id == t.id
  {
    TasksApi.UpdateAndDeleteShareThePath(EditPayload(StartEditing(s, t)));
  }

  // ---------------------------------------------------------------------
  // Properties of the edit state

  /** The screen starts with no row in edit mode, and editing any task
      puts exactly its rows in edit mode. */
  lemma InitialEditShowsNoRow(t: Task, u: Task)
    ensures !IsEditing(InitialEdit(), t)
    ensures IsEditing(StartEditing(InitialEdit(), t), u) <==> u.id == t.id
  {
  }

  /** Among tasks with distinct ids, at most one row is in edit mode. */
  lemma AtMostOneEditing(s: EditState, tasks: seq<Task>, i: nat, j: nat)
    requires forall a, b :: 0 <= a < b < |tasks| ==> tasks[a].id != tasks[b].id
    requires i < |tasks| && j < |tasks|
    requires IsEditing(s, tasks[i]) && IsEditing(s, tasks[j])
    ensures i == j
  {
  }

  /** A successful update leaves no row in edit mode; a failed one leaves
      the same rows in edit mode as before. */
  lemma UpdateOutcomeOnEditMode(s: EditState, t: Task, serverOk: bool)
    ensures serverOk ==> !IsEditing(HandleUpdateTask(s, serverOk).0, t)
    ensures !serverOk ==> (IsEditing(HandleUpdateTask(s, serverOk).0, t) <==> IsEditing(s, t))
  {
  }

  /** Editing a task and saving without changes sends back its own title
      and description to its own path. */
  lemma UnchangedEditResendsTheTask(s: EditState, t: Task, serverOk: bool)
    ensures var edit := StartEditing(s, t);
            TasksApi.RouteOf(HandleUpdateTask(edit, serverOk).1.request)
              == Some(TasksApi.Update(t.id, map["title" := Str(t.title), "description" := Str(t.description)]))
  {
  }
}

=== FILE: js_values.dfy ===
/** The JavaScript values the client moves around: JSON data plus
    `undefined`. Numbers are integers; floating point is not modelled. */
module JsValues {
  import opened Wrappers

  datatype Value =
    | Undefined
    | Null
    | Bool(b: bool)
    | Num(n: int)
    | Str(s: string)
    | Arr(items: seq<Value>)
    | Obj(fields: map<string, Value>)

  /** The exception a property access on `null` or `undefined` throws. */
  datatype JsError = TypeError

  /** JavaScript truthiness: `undefined`, `null`, `false`, `0` and `""` are falsy. */
  function Truthy(v: Value): (b: bool)
    ensures b ==> !Nullish(v)
    ensures v.Arr? || v.Obj? ==> b
    ensures v.Str? ==> (b <==> v.s != "")
  {
    match v
    case Undefined => false
    case Null => false
    case Bool(b) => b
    case Num(n) => n != 0
    case Str(s) => s != ""
    case _ => true
  }

  /** `v == null` under loose equality: holds of `null` and `undefined`. */
  predicate Nullish(v: Value) {
    v.Undefined? || v.Null?
  }

  /** Reading `key` from an object literal: a missing key reads as `undefined`. */
  function Field(fields: map<string, Value>, key: string): Value {
    if key in fields then fields[key] else Undefined
  }

  /** Property access `v.key`. It throws on `null` and `undefined`; on other
      primitives it reads `undefined` (inherited properties such as `length`
      are not modelled). */
  function Member(v: Value, key: string): (r: Result<Value, JsError>)
    ensures r.Err? <==> Nullish(v)
    ensures r.Ok? && !r.value.Undefined? ==> v.Obj? && key in v.fields && v.fields[key] == r.value
    ensures v.Obj? && key in v.fields ==> r == Ok(v.fields[key])
    ensures !v.Obj? && !Nullish(v) ==> r == Ok(Undefined)
  {
    match v
    case Undefined => Err(TypeError)
    case Null => Err(TypeError)
    case Obj(fields) => Ok(Field(fields, key))
    case _ => Ok(Undefined)
  }

  function DigitChar(d: nat): char
    requires d < 10
  {
    "0123456789"[d]
  }

  function NatToDecimal(n: nat): (r: string)
    ensures |r| > 0
    decreases n
  {
    if n < 10 then [DigitChar(n)] else NatToDecimal(n / 10) + [DigitChar(n % 10)]
  }

  /** String conversion as a template literal `${v}` performs it. */
  function ToText(v: Value): (r: string)
    ensures v.Str? ==> r == v.s
    ensures v.Null? ==> r == "null"
    ensures v.Undefined? ==> r == "undefined"
    ensures v.Num? && v.n >= 0 ==> r == NatToDecimal(v.n)
    ensures v.Num? || v.Bool? || v.Obj? ==> r != ""
  {
    match v
    case Undefined => "undefined"
    case Null => "null"
    case Bool(b) => if b then "true" else "false"
    case Num(n) => if n < 0 then "-" + NatToDecimal(-n) else NatToDecimal(n)
    case Str(s) => s
    case Arr(items) => JoinText(items)
    case Obj(_) => "[object Object]"
  }

  /** `Array.prototype.join(",")`: `null` and `undefined` elements become "". */
  function JoinText(items: seq<Value>): string {
    if |items| == 0 then ""
    else
      var last := items[|items| - 1];
      var text := if Nullish(last) then "" else ToText(last);
      if |items| == 1 then text else JoinText(items[..|items| - 1]) + "," + text
  }

  /** `s.length`: the number of UTF-16 code units, where a character beyond
      the Basic Multilingual Plane takes a surrogate pair. */
  function Utf16Length(s: string): (n: nat)
    ensures |s| <= n <= 2 * |s|
    decreases |s|
  {
    if |s| == 0 then 0
    else Utf16Length(s[..|s| - 1]) + (if s[|s| - 1] as int > 0xFFFF then 2 else 1)
  }

  /** Whether every character of `s` is a single UTF-16 code unit. */
  predicate InBasicPlane(s: string) {
    forall i :: 0 <= i < |s| ==> s[i] as int <= 0xFFFF
  }

  /** `length` counts characters exactly when none needs a surrogate pair. */
  lemma {:induction false} Utf16LengthIsCharCountIff(s: string)
    ensures Utf16Length(s) == |s| <==> InBasicPlane(s)
    decreases |s|
  {
    if |s| > 0 {
      var init := s[..|s| - 1];
      Utf16LengthIsCharCountIff(init);
      assert forall i :: 0 <= i < |init| ==> init[i] == s[i];
      if !InBasicPlane(init) {
        var i :| 0 <= i < |init| && init[i] as int > 0xFFFF;
        assert s[i] as int > 0xFFFF;
      }
    }
  }
}

=== FILE: json_codec.dfy ===
/** `JSON.stringify` and `JSON.parse`, kept abstract: the client only passes
    their results through durable storage, so they are parameters here and
    what the client relies on is stated as `Lawful`. */
module JsonCodec {
  import opened Wrappers
  import opened JsValues

  /** `stringify` yields None where JavaScript returns `undefined`; `parse`
      yields None where JavaScript throws a SyntaxError. */
  datatype Codec = Codec(stringify: Value -> Option<string>, parse: string -> Option<Value>)

  /** A value JSON text can denote: no `undefined` anywhere inside. */
  predicate IsJson(v: Value) {
    match v
    case Undefined => false
    case Arr(items) => forall i :: 0 <= i < |items| ==> IsJson(items[i])
    case Obj(fields) => forall k :: k in fields ==> IsJson(fields[k])
    case _ => true
  }

  /** The assumption the session round trip rests on:
      - `stringify` returns no string exactly for `undefined`;
      - every JSON text is non-empty;
      - `parse` inverts `stringify` on JSON values;
      - `parse` only ever produces JSON values. */
  ghost predicate Lawful(c: Codec) {
    && (forall v :: c.stringify(v).None? <==> v.Undefined?)
    && (forall v :: c.stringify(v).Some? ==> c.stringify(v).value != "")
    && (forall v :: IsJson(v) ==> c.stringify(v).Some? && c.parse(c.stringify(v).value) == Some(v))
    && (forall t :: c.parse(t).Some? ==> IsJson(c.parse(t).value))
  }
}

=== FILE: login_screen.dfy ===
/** The login screen: validation of the sign-in form, the request it sends,
    and the `login` action it dispatches with the server's answer. */
module LoginScreen {
  import opened Wrappers
  import opened JsValues
  import opened JsonCodec
  import opened Requests
  import opened AuthSlice
  import opened AppContent
  import AuthApi
  import Ui

  datatype LoginField = EmailOrUsername | PasswordField

  datatype LoginForm = LoginForm(emailOrUsername: string, password: string)

  function InitialForm(): LoginForm {
    LoginForm("", "")
  }

  /** Both fields are required: each is rejected when empty. */
  function LoginErrors(f: LoginForm): (errs: set<LoginField>)
    ensures EmailOrUsername in errs <==> f.emailOrUsername == ""
    ensures PasswordField in errs <==> f.password == ""
  {
    (if f.emailOrUsername == "" then {EmailOrUsername} else {})
    + (if f.password == "" then {PasswordField} else {})
  }

  /** The credentials sent. */
  function LoginPayload(f: LoginForm): (v: Value)
    ensures v.Obj? && v.fields.Keys == {"emailOrusername", "password"}
    ensures v.fields["emailOrusername"] == Str(f.emailOrUsername) && v.fields["password"] == Str(f.password)
  {
    Obj(map["emailOrusername" := Str(f.emailOrUsername), "password" := Str(f.password)])
  }

  /** A press of "Login": blocked by validation, or sent; `shell` is the app
      after the answer was handled. */
  datatype Submission =
    | Blocked(errors: set<LoginField>)
    | Sent(request: Request, shell: Shell, effects: seq<Ui.Effect>)

  /** `onSubmit` behind Formik's validation. `response` is the unwrapped
      server answer, or None when the request was rejected. An answer is
      dispatched whole as the `login` payload; a rejection, or a `login`
      reducer that throws, is caught and logged and the app is unchanged. */
  function PressLogin(s: Shell, f: LoginForm, response: Option<Value>, codec: Codec): (r: Submission)
    ensures r.Blocked? <==> LoginErrors(f) != {}
    ensures r.Blocked? ==> r.errors == LoginErrors(f)
    ensures r.Sent? ==> AuthApi.AuthRouteOf(r.request) == Some(AuthApi.SignIn(LoginPayload(f)))
    ensures r.Sent? ==> r.shell.loading == s.loading && r.shell.store.storage - {UserKey} == s.store.storage - {UserKey}
    ensures r.Sent? && response.None? ==> r.shell == s && r.effects == [Ui.LogError]
    ensures r.Sent? && response.Some? ==> |r.effects| > 0 && r.effects[0] == Ui.Dispatch(Login(response.value))
    ensures r.Sent? && response.Some? ==>
              r.shell == s.(store := Dispatch(s.store, Login(response.value), codec))
    ensures r.Sent? && response.Some? ==> (Ui.LogError in r.effects <==> Nullish(response.value))
    ensures r.Sent? && response.Some? && Nullish(response.value) ==> r.shell == s
    ensures r.Sent? && response.Some? && !Nullish(response.value) ==>
              && r.shell.store.auth.isAuthenticated
              && Member(response.value, "user") == Ok(r.shell.store.auth.user)
  {
    var errs := LoginErrors(f);
    if errs != {} then Blocked(errs)
    else
      var request := AuthApi.LoginQuery(LoginPayload(f));
      match response
      case None => Sent(request, s, [Ui.LogError])
      case Some(answer) =>
        match LoginReducer(s.store, answer, codec)
        case Err(_) => Sent(request, s, [Ui.Dispatch(Login(answer)), Ui.LogError])
        case Ok(store) => Sent(request, s.(store := store), [Ui.Dispatch(Login(answer))])
  }

  // ---------------------------------------------------------------------
  // The session after a sign-in

  lemma InitialFormIsRejected()
    ensures LoginErrors(InitialForm()) == {EmailOrUsername, PasswordField}
  {
  }

  /** A rejected sign-in changes nothing. */
  lemma FailedLoginChangesNothing(s: Shell, f: LoginForm, codec: Codec)
    requires LoginErrors(f) == {}
    ensures PressLogin(s, f, None, codec) == Sent(AuthApi.LoginQuery(LoginPayload(f)), s, [Ui.LogError])
  {
  }

  /** After a successful sign-in over a loaded app, the signed-in tabs show
      exactly when the answer's `user` property is truthy: an answer that
      carries the user in any other shape leaves the sign-in stack showing
      although the slice says authenticated. */
  lemma SignedInViewIff(s: Shell, f: LoginForm, fields: map<string, Value>, codec: Codec)
    requires !s.loading && LoginErrors(f) == {}
    ensures var r := PressLogin(s, f, Some(Obj(fields)), codec);
            && r.Sent?
            && r.shell.store.auth.isAuthenticated
            && (Render(r.shell) == MainTabs <==> Truthy(Field(fields, "user")))
            && (Coherent(r.shell.store.auth) <==> !Nullish(Field(fields, "user")))
  {
  }

  /** The mismatch as an example: an answer holding the user's fields at its
      top level signs the slice in with no user, shows the sign-in stack,
      and writes nothing to storage, so a relaunch is signed out too. */
  lemma TopLevelUserAnswerStaysOnAuthStack(storage: Storage, codec: Codec)
    requires Lawful(codec)
    ensures var answer := Obj(map["name" := Str("Ada"), "username" := Str("ada")]);
            var s := Shell(false, Store(Initial(), storage - {UserKey}));
            var r := PressLogin(s, LoginForm("ada", "secret"), Some(answer), codec);
            && r.Sent?
            && r.shell.store.auth.isAuthenticated
            && !Coherent(r.shell.store.auth)
            && Render(r.shell) == AuthStack
            && Render(Launch(r.shell.store.storage, false, codec)) == AuthStack
  {
    var answer := Obj(map["name" := Str("Ada"), "username" := Str("ada")]);
    assert "user" !in answer.fields;
    assert codec.stringify(Undefined).None?;
  }

  /** An answer of the shape `{user: u}` signs in, shows the tabs, and a
      relaunch restores the same user. */
  lemma NestedUserAnswerSignsIn(s: Shell, f: LoginForm, u: Value, codec: Codec)
    requires !s.loading && LoginErrors(f) == {}
    requires Lawful(codec) && IsJson(u) && Truthy(u)
    ensures var r := PressLogin(s, f, Some(Obj(map["user" := u])), codec);
            && r.Sent?
            && Coherent(r.shell.store.auth)
            && Render(r.shell) == MainTabs
            && Launch(r.shell.store.storage, false, codec).store.auth.user == u
  {
    LoginThenRelaunch(s.store, Obj(map["user" := u]), u, codec);
  }
}

=== FILE: register_screen.dfy ===
/** The register screen: validation of the sign-up form, the image pick,
    and the multipart form data sent to the sign-up endpoint. */
module RegisterScreen {
  import opened Wrappers
  import opened Requests
  import JsValues
  import AuthApi
  import Ui

  datatype RegisterField = Name | Username | Mobile | Email | Password

  datatype RegisterForm = RegisterForm(name: string, username: string, mobile: string, email: string, password: string)

  function InitialForm(): RegisterForm {
    RegisterForm("", "", "", "", "")
  }

  const MinPasswordLength: nat := 6

  predicate IsDigit(c: char) {
    '0' <= c <= '9'
  }

  /** `/^\d+$/`: one or more ASCII decimal digits and nothing else. */
  predicate AllDigits(s: string) {
    |s| > 0 && forall i :: 0 <= i < |s| ==> IsDigit(s[i])
  }

  /** The fields the schema rejects. The password's length is its
      JavaScript `length`, in UTF-16 code units. The e-mail format check is
      not modelled: an e-mail is accepted when non-empty. */
  function RegisterErrors(f: RegisterForm): (errs: set<RegisterField>)
    ensures Name in errs <==> f.name == ""
    ensures Username in errs <==> f.username == ""
    ensures Mobile in errs <==> !AllDigits(f.mobile)
    ensures Email in errs <==> f.email == ""
    ensures Password in errs <==> JsValues.Utf16Length(f.password) < MinPasswordLength
  {
    (if f.name == "" then {Name} else {})
    + (if f.username == "" then {Username} else {})
    + (if !AllDigits(f.mobile) then {Mobile} else {})
    + (if f.email == "" then {Email} else {})
    + (if JsValues.Utf16Length(f.password) < MinPasswordLength then {Password} else {})
  }

  lemma InitialFormIsRejected()
    ensures RegisterErrors(InitialForm()) == {Name, Username, Mobile, Email, Password}
  {
  }

  /** A mobile number is rejected if any character is not a digit, and a
      five-character password is still too short. */
  lemma ValidationExamples()
    ensures Mobile in RegisterErrors(RegisterForm("Ada", "ada", "555-0100", "a@b.c", "secret"))
    ensures Mobile !in RegisterErrors(RegisterForm("Ada", "ada", "5550100", "a@b.c", "secret"))
    ensures Password in RegisterErrors(RegisterForm("Ada", "ada", "5550100", "a@b.c", "short"))
  {
    assert !IsDigit("555-0100"[3]);
    JsValues.Utf16LengthIsCharCountIff("short");
  }

  /** The minimum length is counted in code units: a password of three
      characters beyond the Basic Multilingual Plane has length 6 and passes,
      while any password of fewer than three characters fails. */
  lemma PasswordLengthCountsCodeUnits(f: RegisterForm)
    ensures Password !in RegisterErrors(f.(password := "\U{1F600}\U{1F600}\U{1F600}"))
    ensures |f.password| < 3 ==> Password in RegisterErrors(f)
  {
    var p := "\U{1F600}\U{1F600}\U{1F600}";
    assert p[..2][..1] == p[..1] && p[..3][..2] == p[..2];
    assert JsValues.Utf16Length(p[..1]) == 2;
    assert JsValues.Utf16Length(p[..2]) == 4;
    assert JsValues.Utf16Length(p) == 6;
  }

  // ---------------------------------------------------------------------
  // Image pick

  /** An asset the image library returns; each attribute may be missing. */
  datatype Asset = Asset(uri: Option<string>, mimeType: Option<string>, fileName: Option<string>)

  /** The image library's answer: `didCancel` (missing reads as false) and
      the optional list of assets. */
  datatype PickResponse = PickResponse(didCancel: bool, assets: Option<seq<Asset>>)

  /** `handleImagePick`: the first asset of a pick that was not cancelled
      and returned at least one asset; otherwise the previous selection. */
  function HandleImagePick(selected: Option<Asset>, response: PickResponse): (r: Option<Asset>)
    ensures r != selected ==> r.Some? && !response.didCancel && response.assets.Some?
                               && |response.assets.value| > 0 && r.value == response.assets.value[0]
    ensures !response.didCancel && response.assets.Some? && |response.assets.value| > 0 ==>
              r == Some(response.assets.value[0])
  {
    if !response.didCancel && response.assets.Some? && |response.assets.value| > 0 then
      Some(response.assets.value[0])
    else selected
  }

  const DefaultImageName: string := "profile.jpg"

  /** The file name sent: the asset's `fileName`, unless missing or empty. */
  function ImageName(a: Asset): (name: string)
    ensures a.fileName.Some? && a.fileName.value != "" ==> name == a.fileName.value
    ensures a.fileName.None? || a.fileName.value == "" ==> name == DefaultImageName
  {
    match a.fileName
    case Some(n) => if n != "" then n else DefaultImageName
    case None => DefaultImageName
  }

  // ---------------------------------------------------------------------
  // Form data

  /** The multipart body: the five text fields in order, then the image
      when one was selected. */
  function RegisterFormData(f: RegisterForm, selected: Option<Asset>): (parts: seq<Part>)
    ensures |parts| == if selected.Some? then 6 else 5
    ensures parts[..5] == [TextPart("name", f.name), TextPart("username", f.username),
                           TextPart("mobile", f.mobile), TextPart("email", f.email),
                           TextPart("password", f.password)]
    ensures selected.Some? ==>
              parts[5] == FilePart("img", FileRef(selected.value.uri, selected.value.mimeType, ImageName(selected.value)))
  {
    var text := [TextPart("name", f.name), TextPart("username", f.username),
                 TextPart("mobile", f.mobile), TextPart("email", f.email),
                 TextPart("password", f.password)];
    match selected
    case None => text
    case Some(a) => text + [FilePart("img", FileRef(a.uri, a.mimeType, ImageName(a)))]
  }

  /** `FormData.get(name)` for text parts: the first text part of that name. */
  function TextValue(parts: seq<Part>, name: string): Option<string>
    decreases |parts|
  {
    if |parts| == 0 then None
    else if parts[0].TextPart? && parts[0].name == name then Some(parts[0].text)
    else TextValue(parts[1..], name)
  }

  /** A text part preceded by no text part of the same name is the one
      `TextValue` finds. */
  lemma {:induction false} TextValueFindsFirst(parts: seq<Part>, name: string, k: nat)
    requires k < |parts| && parts[k].TextPart? && parts[k].name == name
    requires forall i :: 0 <= i < k ==> !(parts[i].TextPart? && parts[i].name == name)
    ensures TextValue(parts, name) == Some(parts[k].text)
    decreases k
  {
    if k > 0 {
      assert !(parts[0].TextPart? && parts[0].name == name);
      TextValueFindsFirst(parts[1..], name, k - 1);
    }
  }

  /** Whether the body carries an image part. */
  predicate HasImage(parts: seq<Part>) {
    exists i :: 0 <= i < |parts| && parts[i].FilePart? && parts[i].name == "img"
  }

  /** The form data hands the server back every field unchanged, and an
      image part exactly when an image was picked. */
  lemma FormDataRoundTrip(f: RegisterForm, selected: Option<Asset>)
    ensures var parts := RegisterFormData(f, selected);
            && TextValue(parts, "name") == Some(f.name)
            && TextValue(parts, "username") == Some(f.username)
            && TextValue(parts, "mobile") == Some(f.mobile)
            && TextValue(parts, "email") == Some(f.email)
            && TextValue(parts, "password") == Some(f.password)
            && (HasImage(parts) <==> selected.Some?)
  {
    var parts := RegisterFormData(f, selected);
    assert parts[..5][0] == parts[0] && parts[..5][1] == parts[1] && parts[..5][2] == parts[2];
    assert parts[..5][3] == parts[3] && parts[..5][4] == parts[4];
    TextValueFindsFirst(parts, "name", 0);
    TextValueFindsFirst(parts, "username", 1);
    TextValueFindsFirst(parts, "mobile", 2);
    TextValueFindsFirst(parts, "email", 3);
    TextValueFindsFirst(parts, "password", 4);
    if selected.Some? {
      assert parts[5].FilePart?;
    }
  }

  // ---------------------------------------------------------------------
  // Submitting

  datatype Submission = Blocked(errors: set<RegisterField>) | Sent(request: Request, effects: seq<Ui.Effect>)

  /** A press of "Register" behind Formik's validation: a valid form is
      sent as form data; success navigates to `Login`, failure only logs. */
  function PressRegister(f: RegisterForm, selected: Option<Asset>, serverOk: bool): (r: Submission)
    ensures r.Blocked? <==> RegisterErrors(f) != {}
    ensures r.Blocked? ==> r.errors == RegisterErrors(f)
    ensures r.Sent? ==> AuthApi.AuthRouteOf(r.request) == Some(AuthApi.SignUp(RegisterFormData(f, selected)))
    ensures r.Sent? ==> (Ui.Navigates(r.effects) <==> serverOk)
    ensures r.Sent? && serverOk ==> r.effects == [Ui.GoTo("Login")]
    ensures r.Sent? && !serverOk ==> r.effects == [Ui.LogError]
  {
    var errs := RegisterErrors(f);
    if errs != {} then Blocked(errs)
    else
      var form := RegisterFormData(f, selected);
      var request := AuthApi.RegisterQuery(form);
      if serverOk then
        var effects := [Ui.GoTo("Login")];
        assert effects[0].Navigate?;
        Sent(request, effects)
      else Sent(request, [Ui.LogError])
  }
}

=== FILE: requests.dfy ===
/** Request descriptors as RTK Query endpoint `query` functions return them:
    a path relative to the API's base URL, an optional method, headers and an
    optional body. Joining with the base URL and sending are left to the
    library and are not modelled. */
module Requests {
  import opened Wrappers
  import opened JsValues

  datatype Method = GET | POST | PUT | DELETE

  /** A file part of a multipart form: `{uri, type, name}`. */
  datatype FileRef = FileRef(uri: Option<string>, mimeType: Option<string>, name: string)

  /** One `FormData.append(name, value)` call. */
  datatype Part = TextPart(name: string, text: string) | FilePart(name: string, file: FileRef)

  datatype Body = JsonBody(json: Value) | FormBody(parts: seq<Part>)

  datatype Request = Request(url: string, verb: Option<Method>, headers: map<string, string>, body: Option<Body>)

  const ContentType: string := "Content-Type"
  const JsonContent: string := "application/json"
  const MultipartContent: string := "multipart/form-data"

  /** The method sent: a descriptor that names none is a GET. */
  function EffectiveMethod(r: Request): Method {
    r.verb.GetOr(GET)
  }

  /** A query given as a bare path string. */
  function PathOnly(url: string): (r: Request)
    ensures r.url == url && EffectiveMethod(r) == GET
    ensures r.verb.None? && r.body.None? && r.headers == map[]
  {
    Request(url, None, map[], None)
  }

  predicate HasPrefix(s: string, prefix: string) {
    |prefix| <= |s| && s[..|prefix|] == prefix
  }
}

=== FILE: tasks.dfy ===
/** A task as the backend sends it: `_id`, `title`, `description`,
    `due_date`, `priority`, `category` and `Completed_task`. */
module Tasks {

  datatype Task = Task(
    id: string,
    title: string,
    description: string,
    dueDate: string,
    priority: string,
    category: string,
    completed: bool)
}

=== FILE: tasks_api.dfy ===
/** The tasks API: six endpoints against the root of the backend. */
module TasksApi {
  import opened Wrappers
  import opened JsValues
  import opened Requests

  const TasksBase: string := "https://task-manager-backend-nest-js-1.onrender.com/"

  const TasksPath: string := "tasks"
  const TaskPathPrefix: string := "tasks/"
  const CategoryPrefix: string := "tasks?category="
  const CompletedPath: string := "tasks/completed-tasks"
  const CreatePath: string := "tasks/create"

  /** A call of one endpoint with its argument. `UpdateTask` takes the
      fields of the object literal its callers pass. */
  datatype TaskCall =
    | GetAllTasks
    | GetTasksByCategory(categoryId: Value)
    | GetCompletedTasks
    | CreateTask(task: Value)
    | UpdateTask(arg: map<string, Value>)
    | DeleteTask(id: Value)

  /** What a request asks the backend for, read off its method, path and body. */
  datatype Route =
    | AllTasks
    | ByCategory(category: string)
    | Completed
    | Create(task: Value)
    | Update(id: string, changes: map<string, Value>)
    | Delete(id: string)

  /** The endpoints' `query` functions. The reads are bare paths (a GET);
      `updateTask` splits `id` off into the path and sends the remaining
      fields; `deleteTask` sends no headers and no body. Path parameters are
      interpolated as text without escaping. */
  function Query(c: TaskCall): (r: Request)
    ensures c.GetAllTasks? || c.GetTasksByCategory? || c.GetCompletedTasks? <==> r.verb.None?
    ensures r.verb.None? ==> r.body.None? && r.headers == map[]
    ensures ContentType in r.headers <==> c.CreateTask? || c.UpdateTask?
    ensures c.CreateTask? || c.UpdateTask? ==> r.headers == map[ContentType := JsonContent]
    ensures c.DeleteTask? ==> r.headers == map[] && r.body.None?
    ensures c.CreateTask? ==> r.body == Some(JsonBody(c.task))
    ensures c.UpdateTask? ==> r.body.Some? && r.body.value.JsonBody? && r.body.value.json.Obj?
    ensures c.UpdateTask? ==>
              var sent := r.body.value.json.fields;
              && sent.Keys == c.arg.Keys - {"id"}
              && forall k :: k in sent ==> sent[k] == c.arg[k]
  {
    match c
    case GetAllTasks => PathOnly(TasksPath)
    case GetTasksByCategory(categoryId) => PathOnly(CategoryPrefix + ToText(categoryId))
    case GetCompletedTasks => PathOnly(CompletedPath)
    case CreateTask(task) =>
      Request(CreatePath, Some(POST), map[ContentType := JsonContent], Some(JsonBody(task)))
    case UpdateTask(arg) =>
      Request(TaskPathPrefix + ToText(Field(arg, "id")), Some(PUT),
              map[ContentType := JsonContent], Some(JsonBody(Obj(arg - {"id"}))))
    case DeleteTask(id) =>
      Request(TaskPathPrefix + ToText(id), Some(DELETE), map[], None)
  }

  /** Reads a request back as a backend router would: by method, then path. */
  function RouteOf(r: Request): Option<Route> {
    var m := EffectiveMethod(r);
    var u := r.url;
    if m == GET && u == TasksPath then Some(AllTasks)
    else if m == GET && u == CompletedPath then Some(Completed)
    else if m == GET && HasPrefix(u, CategoryPrefix) then Some(ByCategory(u[|CategoryPrefix|..]))
    else if m == POST && u == CreatePath && r.body.Some? && r.body.value.JsonBody? then
      Some(Create(r.body.value.json))
    else if m == PUT && HasPrefix(u, TaskPathPrefix) && r.body.Some? && r.body.value.JsonBody?
            && r.body.value.json.Obj? then
      Some(Update(u[|TaskPathPrefix|..], r.body.value.json.fields))
    else if m == DELETE && HasPrefix(u, TaskPathPrefix) then Some(Delete(u[|TaskPathPrefix|..]))
    else None
  }

  /** The route each call is meant to reach, stated from the call alone. */
  function Intended(c: TaskCall): Route {
    match c
    case GetAllTasks => AllTasks
    case GetTasksByCategory(categoryId) => ByCategory(ToText(categoryId))
    case GetCompletedTasks => Completed
    case CreateTask(task) => Create(task)
    case UpdateTask(arg) => Update(ToText(Field(arg, "id")), arg - {"id"})
    case DeleteTask(id) => Delete(ToText(id))
  }

  // ---------------------------------------------------------------------
  // Properties of the descriptors

  lemma PrefixedPath(prefix: string, rest: string)
    ensures HasPrefix(prefix + rest, prefix)
    ensures (prefix + rest)[|prefix|..] == rest
  {
    assert (prefix + rest)[..|prefix|] == prefix;
  }

  /** Every descriptor reaches the route its call intends: the category,
      the id and the update fields all survive into the request. */
  lemma {:induction false} QueryReachesIntendedRoute(c: TaskCall)
    ensures RouteOf(Query(c)) == Some(Intended(c))
  {
    match c
    case GetAllTasks =>
    case GetCompletedTasks =>
    case GetTasksByCategory(categoryId) =>
      var u := CategoryPrefix + ToText(categoryId);
      PrefixedPath(CategoryPrefix, ToText(categoryId));
      assert u[5] == '?';
      assert u != TasksPath;
      assert CompletedPath[5] == '/';
      assert u != CompletedPath;
    case CreateTask(task) =>
    case UpdateTask(arg) =>
      PrefixedPath(TaskPathPrefix, ToText(Field(arg, "id")));
    case DeleteTask(id) =>
      PrefixedPath(TaskPathPrefix, ToText(id));
  }

  /** Calls meant for different routes never produce the same request, even
      when paths coincide (`deleteTask("create")` hits "tasks/create" with
      DELETE, `createTask` with POST). */
  lemma DistinctRoutesDistinctRequests(c1: TaskCall, c2: TaskCall)
    requires Intended(c1) != Intended(c2)
    ensures Query(c1) != Query(c2)
  {
    QueryReachesIntendedRoute(c1);
    QueryReachesIntendedRoute(c2);
  }

  /** `updateTask` and `deleteTask` for the same id target the same path and
      differ in method, headers and body. */
  lemma UpdateAndDeleteShareThePath(arg: map<string, Value>)
    ensures var up := Query(UpdateTask(arg));
            var del := Query(DeleteTask(Field(arg, "id")));
            && up.url == del.url
            && up.verb == Some(PUT) && del.verb == Some(DELETE)
            && up.headers != del.headers
            && up.body.Some? && del.body.None?
  {
  }

  /** Nothing of an update argument is lost: a string id comes back out of
      the path and every other field out of the body. */
  lemma UpdateLosesNothing(arg: map<string, Value>, id: string)
    requires "id" in arg && arg["id"] == Str(id)
    ensures RouteOf(Query(UpdateTask(arg))).Some?
    ensures var route := RouteOf(Query(UpdateTask(arg))).value;
            route.Update? && route.id == id && route.changes[("id") := Str(id)] == arg
  {
    QueryReachesIntendedRoute(UpdateTask(arg));
    var route := RouteOf(Query(UpdateTask(arg))).value;
    assert route.changes[("id") := Str(id)] == arg;
  }

  /** Category ids go into the query string verbatim: "Health & Fitness",
      one of the offered categories, puts a raw `&` into the path, which a
      query-string parser reads as the start of a second parameter. */
  lemma CategoryIsNotEscaped()
    ensures Query(GetTasksByCategory(Str("Health & Fitness"))).url == "tasks?category=Health & Fitness"
    ensures '&' in Query(GetTasksByCategory(Str("Health & Fitness"))).url
  {
    var u := Query(GetTasksByCategory(Str("Health & Fitness"))).url;
    assert u[|CategoryPrefix| + 7] == '&';
  }
}

=== FILE: ui.dfy ===
/** The observable effects of a screen handler, in the order they happen. */
module Ui {
  import AuthSlice

  datatype Effect =
    | Alert(title: string, message: string)
    | Navigate(route: string, params: map<string, string>)
    | Refetch
    | LogError
    | Dispatch(action: AuthSlice.Action)

  /** Navigation without params. */
  function GoTo(route: string): Effect {
    Navigate(route, map[])
  }

  /** Whether `effects` navigates anywhere. */
  predicate Navigates(effects: seq<Effect>) {
    exists i :: 0 <= i < |effects| && effects[i].Navigate?
  }
}

=== FILE: wrappers.dfy ===
/** Optional values and fallible results: `undefined` and thrown exceptions
    of the JavaScript client become values here. */
module Wrappers {

  datatype Option<+T> = None | Some(value: T) {

    /** The wrapped value, or `default` when there is none. */
    function GetOr(default: T): T {
      match this
      case Some(v) => v
      case None => default
    }
  }

  datatype Result<+T, +E> = Ok(value: T) | Err(error: E)
}
